=== FILE: README.md ===
# Larupload trait: attachment routing and save/delete lifecycle

A Dafny model of the `Larupload` trait of the larupload package: the part an
Eloquent model class mixes in so that some of its fields hold uploaded files
(attachments) instead of plain column values.

The model is a functional state machine over two pieces of state:

- `World` is class-wide. It holds the static `$uploaded` flag. PHP keeps one
  such flag per class that uses the trait, shared with every subclass that
  does not redeclare it and with all their instances. So one `World` stands
  for that whole class hierarchy. It also holds a trace of the calls the
  trait issues to attachments and to the persistence framework.
- `Record` is one model instance. It holds the table name, the
  `attachedFiles` array (an insertion-ordered list of field → `Attachment`
  bindings) and the plain attribute array.

The trait calls `Attachment` methods whose code is not modelled here
(`setUploadedFile`, `saved`, `getFiles`, `url`, `download`, `getMeta`, and the
constructor). They are fields of a `Collaborators` value and are arbitrary
functions, so every property holds whatever they do. Calls with effects
(`setUploadedFile`, `saved`, `deleted`, and the framework's `save()`) also
append an `Event` to the trace: one per line of the trait that issues them,
and a `ModelSaved(false)` for each save the caller starts.

Modules: `Values` (PHP values and truthiness), `Registry` (the
`attachedFiles` array), `State` (world, record, collaborators), `Routing`
(declaration and attribute read/write routing), `Queries` (`getFiles`, `url`,
`download`, `meta`), `Dirty` (`getDirty`), `Lifecycle` (the saved and deleted
hooks), `Scenarios` (call sequences and the re-entrancy flag).

Behaviours of the trait worth knowing:

- The re-entrancy flag is static, so it is shared by every instance of the
  class that uses the trait and of its subclasses. Two model classes that
  extend one such base class share it too.
  `Scenarios.SiblingUploadSwallowed` shows the consequence. Two
  instances each receive a file, and the first is saved before the second.
  The second file is still handed to its attachment by `setUploadedFile`,
  but the second save finds the flag up. So it never calls `saved` on the
  second instance's attachments, and `saved` is the call that stores the file.
- The flag is never cleared after a save cycle. Only `setUploadedFile` with a
  truthy file on a declared field lowers it. So the first save after the class
  loads runs the hook body even when no file was set.
- The saved hook calls `saved` on every attachment, not only those with a
  pending file.
- Declaring a field twice does not fail. The second declaration replaces the
  first attachment in place.
- The deleted hook tests `$model->forceDeleting`. A model class without
  Eloquent's `SoftDeletes` trait has no such property, so the read falls
  through to `getAttribute` and gives null (or the value of a column of that
  name). Such a delete is irrevocable, yet it never reaches the attachments'
  `deleted`.
- `url`, `download` and `meta` read `$this->attributes['id']` once the name is
  declared. When the attribute array has no `id` key at all, PHP reports an
  undefined index, and Laravel's error handler turns that into an exception.
  The model answers `Raised` in that case. An `id` that is present but falsy
  gives the empty answer.

## Model

| member | source | states |
|---|---|---|
| Values.FalsyValues | src/Traits/Larupload.php:95 | the values the `if ($file)` style tests treat as false are exactly null, false, 0, "", "0" and the empty array |
| Registry.Bind | src/Traits/Larupload.php:80 | assigning `attachedFiles[$name]` makes `name` look up the new attachment |
| Registry.BindFields | src/Traits/Larupload.php:80 | an existing key keeps its position in the array; a new key is appended at the end |
| Registry.BindKeepsOthers | src/Traits/Larupload.php:80 | assigning one key leaves the lookup of every other key unchanged |
| Registry.BindKeepsDistinct | src/Traits/Larupload.php:80 | the attachment array never binds a field twice |
| Routing.HasUploadFile | src/Traits/Larupload.php:75-81 | binds a freshly constructed attachment (name, table as folder, options) under `name`, overwriting any earlier one; other bindings, the attributes and the table are unchanged |
| Routing.SetUploadedFile | src/Traits/Larupload.php:92-106 | returns true exactly when `key` is declared; a falsy file or undeclared key changes nothing; a truthy file lowers the class-wide flag, forwards (file, cover) to that key's attachment only, and leaves the other attachments and the attributes as they were |
| Routing.SetAttribute | src/Traits/Larupload.php:114-119 | a declared key never reaches the parent attribute array and behaves as `setUploadedFile` with no cover; an undeclared key is written to the attribute array and nothing else changes |
| Routing.GetAttribute | src/Traits/Larupload.php:127-134 | a declared key reads `getFiles(key)`, any other key the parent attribute (null when absent) |
| Routing.PlainRoundTrip | src/Traits/Larupload.php:114-134 | writing an undeclared attribute and reading it back yields the written value |
| Routing.AttachmentWriteSparesAttributes | src/Traits/Larupload.php:114-119 | writing a declared field, with any value, leaves every plain attribute read unchanged |
| Routing.AttachmentReadSeesAttachment | src/Traits/Larupload.php:127-131 | after a truthy write to a declared field, reading it gives the files view of the updated attachment, not the written value |
| Dirty.GetDirty | src/Traits/Larupload.php:152-159 | the result holds exactly the parent's dirty entries whose value is not an attachment, with keys and values unchanged and in the original order |
| Dirty.KeepPlainMembers | src/Traits/Larupload.php:156-158 | an entry is kept exactly when it is in the dirty array and its value is not an `Attachment` |
| Dirty.KeepPlainAppend | src/Traits/Larupload.php:156-158 | the filter distributes over concatenation, so relative order is preserved |
| Dirty.KeepPlainIdempotent | src/Traits/Larupload.php:152-159 | filtering an already filtered array changes nothing |
| Dirty.KeepPlainWithoutPlaceholders | src/Traits/Larupload.php:156-158 | a dirty array without attachment values is returned unchanged |
| Queries.GetFiles | src/Traits/Larupload.php:223-240 | a truthy undeclared name gives null, a truthy declared name its attachment's view; a missing or falsy name gives an object with one entry per declared field, in array order |
| Queries.AllFilesAgreeWithSingle | src/Traits/Larupload.php:223-240 | each entry of the all-fields object equals the single-field answer for that field |
| Queries.FalsyNameListsEveryField | src/Traits/Larupload.php:225-239 | asking for the field named "0" or "" yields the object for every field |
| Queries.CheckGuard | src/Traits/Larupload.php:170 | the guard opens exactly when the name is declared and `id` is truthy, throws exactly when the name is declared and `id` is missing, and an open guard carries the attachment bound to the name |
| Queries.Url | src/Traits/Larupload.php:168-187 | an undeclared name gives null; a declared name raises when `id` is missing, gives null when `id` is falsy, and otherwise gives the attachment's URL for the style, "original" when omitted |
| Queries.Download | src/Traits/Larupload.php:196-215 | an undeclared name gives null; a declared name raises when `id` is missing, gives null when `id` is falsy, and otherwise gives the attachment's download for the style, "original" when omitted |
| Queries.Meta | src/Traits/Larupload.php:249-256 | a declared name raises when `id` is missing; an undeclared name or a falsy `id` gives null for a truthy key and an empty object for a missing or falsy key; otherwise the attachment's metadata |
| Queries.UnsavedRecordAnswersEmpty | src/Traits/Larupload.php:168-256 | a record whose `id` is present but falsy answers url, download and meta with their empty values for every name |
| Queries.MissingIdRaises | src/Traits/Larupload.php:168-256 | without an `id` key, every url, download and meta query of a declared name raises, while an undeclared name gets the empty answer without reading `id`: null from url and download, and from meta null for a truthy key and an empty object for a missing or falsy key |
| Lifecycle.SavedHook | src/Traits/Larupload.php:46-56 | with the flag up it changes nothing; otherwise it raises the flag, calls `saved` on every attachment in array order threading the model, and issues exactly one further save, whose write the returned record carries |
| Lifecycle.Save | src/Traits/Larupload.php:46-56 | a save always leaves the flag up; the hook sees the record after the framework's write; with the flag up only the write happens; otherwise the nested save finds the flag up and the hook body runs once |
| Lifecycle.DeletedHook | src/Traits/Larupload.php:58-64 | a truthy `forceDeleting` calls `deleted` on every attachment in order; otherwise nothing happens; the flag is untouched |
| Lifecycle.SaveRunsBodyAtMostOnce | src/Traits/Larupload.php:46-56 | one external save runs the hook body exactly once when the flag was down and never when it was up |
| Lifecycle.FirstSaveRunsBody | src/Traits/Larupload.php:24-56 | the first save after the class loads runs the hook body once, with no file ever set |
| Lifecycle.DeleteCascadesOnlyWhenForced | src/Traits/Larupload.php:58-64 | a force delete issues one `deleted` call per attachment, a soft delete none, and neither issues a save |
| Scenarios.StepSpendsBudget | src/Traits/Larupload.php:46-56 | any call that does not hand a truthy file to a declared field cannot run the hook body more often than the flag allows |
| Scenarios.HookBodyAtMostOnce | src/Traits/Larupload.php:46-56 | across any sequence of calls with no truthy file on a declared field, the hook body runs at most once, and never if the flag was up |
| Scenarios.UploadRearmsHook | src/Traits/Larupload.php:94-99 | a truthy file on a declared field makes the next save run the hook body again |
| Scenarios.SiblingUploadSwallowed | src/Traits/Larupload.php:24 | with the flag shared by the class, when a first instance is saved after a second instance receives a file and before the second is saved, the second file reaches its attachment but the second save only writes the record and never calls `saved` |
| Scenarios.StepKeepsDistinct | src/Traits/Larupload.php:75-119 | declarations and attribute or file writes never bind a field twice |
| Scenarios.IdentityOpensQueries | src/Traits/Larupload.php:114-256 | writing a truthy `id` to a model whose `id` is not a declared field makes url, download and meta of every declared name answer from its attachment for the updated record |

## Left out

- `laruploadQueue` and `laruploadQueues` (src/Traits/Larupload.php:263-276) only define ORM relations and queries. No queue status logic appears in the trait.
- The `LARUPLOAD_NULL` constant (src/Traits/Larupload.php:40-44) is derived from the clock and is not used by the modelled logic.
- The `Attachment` class is not part of this model. Its methods are arbitrary collaborator functions. The constructor's exceptions are not modelled.
- `Attachment::saved` receives and returns a `Record` only. So the model assumes it does not call back into the trait, for example to lower the flag or to save the model itself.
- `Attachment::deleted` is only a trace event. So the model assumes it changes neither the attachment nor the record, never saves the model and never touches the flag; the delete case of `Scenarios.StepSpendsBudget` rests on this.
- Object aliasing is not modelled. The saved loop walks the attachment values as they were when the loop began. In PHP those are shared objects, which `saved` could mutate mid-loop.
- Eloquent itself is not modelled. The parent `setAttribute` is a plain map write. The parent `getAttribute` is a plain map read with no casts, mutators, accessors or relations, and no early null for a falsy key. Eloquent returns null at once for a key such as "0", so `Routing.PlainRoundTrip` does not hold there in the real framework. The parent dirty array is an input to `getDirty`. `forceDeleting` is an input value. The framework's write during `save()` (the key assigned on insert, timestamps) is an arbitrary function `persist` of the record, so no property depends on what it writes. `save()` always succeeds and fires the saved event after that write; failed writes, `saving` events and dirty checks are not modelled.
- The queries (`getFiles`, `url`, `download`, `meta`) call attachments without side effects in the model and leave no trace event.
- PHP's normalisation of numeric string array keys, floats, storage, transcoding and concurrency are not modelled.
- The undefined-index exception of `url`, `download` and `meta` is a single `Raised` outcome. Its class and message, and the behaviour under an error handler that does not throw on notices, are not modelled.
- Lifecycle.SavedHook, Routing.SetUploadedFile: collaborators cannot fail in the model. `Attachment::saved`, `Attachment::setUploadedFile`, `Attachment::deleted` and the nested `$model->save()` always return. In the trait, the saved hook raises the flag (src/Traits/Larupload.php:48) before its loop. So a `saved` that throws skips the remaining attachments and the nested save at :54 but leaves the flag up, and a caught retry of `save()` then skips the hook body: the pending file is not stored until a new truthy upload. Likewise `setUploadedFile` lowers the flag (:96) before forwarding the file (:99), so a forward that throws still re-arms the hook. The all-or-nothing `Assigned` result cannot show that.
- Routing.PlainRoundTrip: holds over the plain-map parent read; for a falsy key such as "0", Eloquent's `getAttribute` answers null, so the read-back there differs from the written value.

=== FILE: dirty.dfy ===
/**
 `getDirty`: the parent's dirty array with every `Attachment` value removed,
 so attachment placeholders are never written as plain columns.
 */
module Dirty {
  import opened Values

  /** A dirty array: attribute name to changed value, in PHP array order. */
  type DirtyArray = seq<(string, Value)>

  /** The values `array_filter` drops: `$var instanceof Attachment`. */
  predicate Placeholder(v: Value)
  {
    v.AttachmentObject?
  }

  /** Reference definition of the filter, entry by entry from the front. */
  function KeepPlain(d: DirtyArray): DirtyArray
  {
    if d == [] then []
    else (if Placeholder(d[0].1) then [] else [d[0]]) + KeepPlain(d[1..])
  }

  /** The filter distributes over concatenation, so it keeps the order of entries. */
  lemma {:induction false} KeepPlainAppend(a: DirtyArray, b: DirtyArray)
    ensures KeepPlain(a + b) == KeepPlain(a) + KeepPlain(b)
  {
    if a == [] {
      assert a + b == b;
    } else {
      assert (a + b)[1..] == a[1..] + b;
      KeepPlainAppend(a[1..], b);
    }
  }

  /** An entry survives the filter exactly when it is in the input and is not a placeholder. */
  lemma {:induction false} KeepPlainMembers(d: DirtyArray, e: (string, Value))
    ensures e in KeepPlain(d) <==> e in d && !Placeholder(e.1)
  {
    if d != [] {
      KeepPlainMembers(d[1..], e);
      assert d == [d[0]] + d[1..];
    }
  }

  /** Filtering twice is filtering once. */
  lemma {:induction false} KeepPlainIdempotent(d: DirtyArray)
    ensures KeepPlain(KeepPlain(d)) == KeepPlain(d)
  {
    if d != [] {
      var head := if Placeholder(d[0].1) then [] else [d[0]];
      KeepPlainAppend(head, KeepPlain(d[1..]));
      KeepPlainIdempotent(d[1..]);
      if !Placeholder(d[0].1) {
        assert KeepPlain(head) == head by {
          assert head[1..] == [];
        }
      }
    }
  }

  /** A dirty array with no placeholder passes through unchanged. */
  lemma {:induction false} KeepPlainWithoutPlaceholders(d: DirtyArray)
    requires forall i :: 0 <= i < |d| ==> !Placeholder(d[i].1)
    ensures KeepPlain(d) == d
  {
    if d != [] {
      KeepPlainWithoutPlaceholders(d[1..]);
      assert d == [d[0]] + d[1..];
    }
  }

  /**
   `getDirty()`: filters the parent's dirty array. The result is an
   order-preserving sub-array of it, holding every entry whose value is not
   an attachment and no other.
   */
  method GetDirty(dirty: DirtyArray) returns (kept: DirtyArray)
    ensures kept == KeepPlain(dirty)
    ensures forall e :: e in kept <==> e in dirty && !Placeholder(e.1)
    ensures |kept| <= |dirty|
  {
    kept := [];
    var i := 0;
    while i < |dirty|
      invariant 0 <= i <= |dirty|
      invariant kept == KeepPlain(dirty[..i])
      invariant |kept| <= i
    {
      var entry := dirty[i];
      KeepPlainAppend(dirty[..i], [entry]);
      assert dirty[..i + 1] == dirty[..i] + [entry];
      assert KeepPlain([entry]) == (if Placeholder(entry.1) then [] else [entry]) by {
        assert [entry][1..] == [];
      }
      if !Placeholder(entry.1) {
        kept := kept + [entry];
      }
      i := i + 1;
    }
    assert dirty[..i] == dirty;
    forall e
      ensures e in kept <==> e in dirty && !Placeholder(e.1)
    {
      KeepPlainMembers(dirty, e);
    }
  }
}

=== FILE: lifecycle.dfy ===
/**
 The two model-event handlers registered by `bootLarupload`: the saved hook,
 which hands every attachment the persisted model and then saves once more,
 guarded by the class-wide `uploaded` flag; and the deleted hook, which
 cascades to the attachments only on a force delete.
 */
module Lifecycle {
  import opened Values
  import opened Registry
  import opened State

  /** The `saved` calls the hook issues for a snapshot of the attachment array. */
  function SavedTrail(bs: seq<Binding>): (t: seq<Event>)
    ensures |t| == |bs|
    ensures forall i :: 0 <= i < |bs| ==> t[i] == AttachmentSaved(bs[i].field)
  {
    if bs == [] then [] else [AttachmentSaved(bs[0].field)] + SavedTrail(bs[1..])
  }

  /** The `deleted` calls the hook issues on a force delete. */
  function DeletedTrail(bs: seq<Binding>): (t: seq<Event>)
    ensures |t| == |bs|
    ensures forall i :: 0 <= i < |bs| ==> t[i] == AttachmentDeleted(bs[i].field)
  {
    if bs == [] then [] else [AttachmentDeleted(bs[0].field)] + DeletedTrail(bs[1..])
  }

  /**
   `foreach (... as $attachedFile) $model = $attachedFile->saved($model);`:
   the loop runs over the array as it was when the loop began, threading the
   model each attachment returns into the next call.
   */
  function Walk(c: Collaborators, bs: seq<Binding>, r: Record): Record
  {
    if bs == [] then r else Walk(c, bs[1..], c.saved(bs[0].attachment, r))
  }

  /**
   The `saved` handler. With the flag already raised it does nothing;
   otherwise it raises the flag, calls `saved` on every attachment in array
   order and issues exactly one further save, whose own saved event finds
   the flag raised.
   */
  function SavedHook(c: Collaborators, w: World, r: Record): (res: (World, Record))
    ensures w.uploaded ==> res == (w, r)
    ensures !w.uploaded ==>
      res.0 == World(true, w.trace + SavedTrail(r.files) + [ModelSaved(true)]) &&
      res.1 == Persisted(c, Walk(c, r.files, r))
    decreases if w.uploaded then 0 else 1, 0
  {
    if w.uploaded then (w, r)
    else
      var w1 := World(true, w.trace + SavedTrail(r.files));
      Save(c, w1, Walk(c, r.files, r), true)
  }

  /**
   A persistence-framework `save()`: the framework writes the record (the
   `persist` collaborator: key on insert, timestamps), the write is recorded
   as an event, and the saved event fires, handled by `SavedHook`, which so
   sees the written record. `resave` marks the save issued from inside the
   hook.
   */
  function Save(c: Collaborators, w: World, r: Record, resave: bool): (res: (World, Record))
    ensures res.0.uploaded
    ensures w.uploaded ==> res == (World(true, w.trace + [ModelSaved(resave)]), Persisted(c, r))
    ensures !w.uploaded ==>
      res.0.trace == w.trace + [ModelSaved(resave)] + SavedTrail(r.files) + [ModelSaved(true)] &&
      res.1 == Persisted(c, Walk(c, r.files, Persisted(c, r)))
    decreases if w.uploaded then 0 else 1, 1
  {
    SavedHook(c, World(w.uploaded, w.trace + [ModelSaved(resave)]), Persisted(c, r))
  }

  /**
   The `deleted` handler: calls `deleted` on every attachment, in array order,
   when the model's `forceDeleting` reads true, and nothing on a soft delete.
   It never changes the flag or the record.
   */
  function DeletedHook(w: World, r: Record, forceDeleting: Value): (w': World)
    ensures w'.uploaded == w.uploaded
    ensures Truthy(forceDeleting) ==> w'.trace == w.trace + DeletedTrail(r.files)
    ensures !Truthy(forceDeleting) ==> w' == w
  {
    if Truthy(forceDeleting) then World(w.uploaded, w.trace + DeletedTrail(r.files)) else w
  }

  /** How many saves in a trace were issued by the saved hook: one per run of its body. */
  function Resaves(t: seq<Event>): nat
  {
    if t == [] then 0
    else Resaves(t[..|t| - 1]) + (if t[|t| - 1] == ModelSaved(true) then 1 else 0)
  }

  /** How many `deleted` calls a trace holds. */
  function Deletions(t: seq<Event>): nat
  {
    if t == [] then 0
    else Deletions(t[..|t| - 1]) + (if t[|t| - 1].AttachmentDeleted? then 1 else 0)
  }

  lemma {:induction false} ResavesAppend(a: seq<Event>, b: seq<Event>)
    ensures Resaves(a + b) == Resaves(a) + Resaves(b)
  {
    if b == [] {
      assert a + b == a;
    } else {
      var b0 := b[..|b| - 1];
      assert (a + b)[..|a + b| - 1] == a + b0;
      assert (a + b)[|a + b| - 1] == b[|b| - 1];
      ResavesAppend(a, b0);
    }
  }

  lemma {:induction false} DeletionsAppend(a: seq<Event>, b: seq<Event>)
    ensures Deletions(a + b) == Deletions(a) + Deletions(b)
  {
    if b == [] {
      assert a + b == a;
    } else {
      var b0 := b[..|b| - 1];
      assert (a + b)[..|a + b| - 1] == a + b0;
      assert (a + b)[|a + b| - 1] == b[|b| - 1];
      DeletionsAppend(a, b0);
    }
  }

  /** Counts a trace with no hook-issued save and no `deleted` call as zero of each. */
  lemma {:induction false} CountsOfQuietTrace(t: seq<Event>)
    requires forall i :: 0 <= i < |t| ==> t[i] != ModelSaved(true) && !t[i].AttachmentDeleted?
    ensures Resaves(t) == 0 && Deletions(t) == 0
  {
    if t != [] {
      CountsOfQuietTrace(t[..|t| - 1]);
    }
  }

  /** Counts the `deleted` calls of a force delete: one per attachment. */
  lemma {:induction false} DeletionsOfTrail(bs: seq<Binding>)
    ensures Deletions(DeletedTrail(bs)) == |bs|
    ensures Resaves(DeletedTrail(bs)) == 0
  {
    if bs != [] {
      var t := DeletedTrail(bs);
      assert t == [t[0]] + DeletedTrail(bs[1..]);
      DeletionsOfTrail(bs[1..]);
      DeletionsAppend([t[0]], DeletedTrail(bs[1..]));
      ResavesAppend([t[0]], DeletedTrail(bs[1..]));
      assert [t[0]][..0] == [];
    }
  }

  /**
   One external save runs the hook body at most once: exactly once when the
   flag was down, not at all when it was up; either way the flag is up after.
   */
  lemma SaveRunsBodyAtMostOnce(c: Collaborators, w: World, r: Record)
    ensures var w' := Save(c, w, r, false).0;
      w'.uploaded && Resaves(w'.trace) == Resaves(w.trace) + (if w.uploaded then 0 else 1)
  {
    var w' := Save(c, w, r, false).0;
    var trail := SavedTrail(r.files);
    CountsOfQuietTrace(trail);
    CountsOfQuietTrace([ModelSaved(false)]);
    if w.uploaded {
      ResavesAppend(w.trace, [ModelSaved(false)]);
    } else {
      assert w'.trace == w.trace + ([ModelSaved(false)] + trail) + [ModelSaved(true)];
      ResavesAppend(w.trace + ([ModelSaved(false)] + trail), [ModelSaved(true)]);
      ResavesAppend(w.trace, [ModelSaved(false)] + trail);
      ResavesAppend([ModelSaved(false)], trail);
      assert [ModelSaved(true)][..0] == [];
    }
  }

  /**
   The class starts with the flag down, so the first save after it loads runs
   the hook body even when no file was ever set.
   */
  lemma FirstSaveRunsBody(c: Collaborators, r: Record)
    ensures Resaves(Save(c, Boot, r, false).0.trace) == 1
  {
    SaveRunsBodyAtMostOnce(c, Boot, r);
  }

  /**
   A soft delete issues no attachment call; a force delete issues one
   `deleted` call per attachment and no save.
   */
  lemma DeleteCascadesOnlyWhenForced(w: World, r: Record, forceDeleting: Value)
    ensures var w' := DeletedHook(w, r, forceDeleting);
      Deletions(w'.trace) == Deletions(w.trace) + (if Truthy(forceDeleting) then |r.files| else 0) &&
      Resaves(w'.trace) == Resaves(w.trace)
  {
    DeletionsOfTrail(r.files);
    DeletionsAppend(w.trace, DeletedTrail(r.files));
    ResavesAppend(w.trace, DeletedTrail(r.files));
  }
}

=== FILE: queries.dfy ===
/**
 The read-only query surface of the trait: `getFiles`, `url`/`laruploadUrl`,
 `download`/`laruploadDownload` and `meta`. Each guards its call into the
 attachment and answers null or an empty object when the guard fails.
 */
module Queries {
  import opened Values
  import opened Registry
  import opened State

  /** One `$files->{$name} = $attachedFile->getFiles($this)` per binding, in array order. */
  function AllFiles(c: Collaborators, r: Record, bs: seq<Binding>): (props: seq<(string, Value)>)
    ensures |props| == |bs|
    ensures forall i :: 0 <= i < |bs| ==>
      props[i] == (bs[i].field, c.files(bs[i].attachment, r))
  {
    if bs == [] then [] else [(bs[0].field, c.files(bs[0].attachment, r))] + AllFiles(c, r, bs[1..])
  }

  /**
   `getFiles($name = null)`. A truthy name asks for that field alone (null when
   it is not declared); a missing or falsy name asks for every field.
   */
  function GetFiles(c: Collaborators, r: Record, name: Option<string>): (v: Value)
    ensures TruthyName(name) && !Declared(r.files, name.value) ==> v == Null
    ensures TruthyName(name) && Declared(r.files, name.value) ==>
      v == c.files(Lookup(r.files, name.value).value, r)
    ensures !TruthyName(name) ==> v.Obj? && |v.props| == |r.files|
    ensures !TruthyName(name) ==> forall i :: 0 <= i < |r.files| ==>
      v.props[i] == (r.files[i].field, c.files(r.files[i].attachment, r))
  {
    if TruthyName(name) then
      match Lookup(r.files, name.value)
      case Some(a) => c.files(a, r)
      case None => Null
    else
      Obj(AllFiles(c, r, r.files))
  }

  /** How `array_key_exists($name, $this->attachedFiles) and $this->attributes['id']` comes out. */
  datatype Guard =
    /** Both hold: the query goes to attachment `a`. */
    | Open(a: Attachment)
    /** The name is undeclared, or `id` is present but falsy. */
    | Closed
    /** The name is declared and `id` is missing: reading it raises. */
    | Throws

  /**
   The guard shared by `url`, `download` and `meta`. `and` short-circuits,
   so `id` is read only for a declared name.
   */
  function CheckGuard(r: Record, name: string): (g: Guard)
    ensures g.Open? <==> Declared(r.files, name) && HasIdentity(r)
    ensures g.Throws? <==> Declared(r.files, name) && !HasIdKey(r)
    ensures g.Open? ==> Lookup(r.files, name) == Some(g.a)
  {
    match Lookup(r.files, name)
    case Some(a) =>
      if !HasIdKey(r) then Throws
      else if Truthy(r.attributes["id"]) then Open(a)
      else Closed
    case None => Closed
  }

  /**
   `laruploadUrl`, and `url`, which forwards to it unchanged; an omitted
   style means "original".
   */
  function Url(c: Collaborators, r: Record, name: string, style: Option<string>): (rep: Reply)
    ensures !Declared(r.files, name) ==> rep == Returned(Null)
    ensures Declared(r.files, name) && !HasIdKey(r) ==> rep == Raised
    ensures Declared(r.files, name) && HasIdKey(r) && !HasIdentity(r) ==> rep == Returned(Null)
    ensures Declared(r.files, name) && HasIdentity(r) ==>
      rep == Returned(c.url(Lookup(r.files, name).value, r, StyleOrDefault(style)))
  {
    match CheckGuard(r, name)
    case Open(a) => Returned(c.url(a, r, StyleOrDefault(style)))
    case Closed => Returned(Null)
    case Throws => Raised
  }

  /**
   `laruploadDownload`, and `download`, which forwards to it unchanged; an
   omitted style means "original".
   */
  function Download(c: Collaborators, r: Record, name: string, style: Option<string>): (rep: Reply)
    ensures !Declared(r.files, name) ==> rep == Returned(Null)
    ensures Declared(r.files, name) && !HasIdKey(r) ==> rep == Raised
    ensures Declared(r.files, name) && HasIdKey(r) && !HasIdentity(r) ==> rep == Returned(Null)
    ensures Declared(r.files, name) && HasIdentity(r) ==>
      rep == Returned(c.download(Lookup(r.files, name).value, r, StyleOrDefault(style)))
  {
    match CheckGuard(r, name)
    case Open(a) => Returned(c.download(a, r, StyleOrDefault(style)))
    case Closed => Returned(Null)
    case Throws => Raised
  }

  /**
   `meta($name, $key = null)`. When the guard fails without raising, a truthy
   key gets null and a missing or falsy key an empty object.
   */
  function Meta(c: Collaborators, r: Record, name: string, key: Option<string>): (rep: Reply)
    ensures !Declared(r.files, name) || (HasIdKey(r) && !HasIdentity(r)) ==>
      rep == Returned(if TruthyName(key) then Null else Obj([]))
    ensures Declared(r.files, name) && !HasIdKey(r) ==> rep == Raised
    ensures Declared(r.files, name) && HasIdentity(r) ==>
      rep == Returned(c.meta(Lookup(r.files, name).value, r, key))
  {
    match CheckGuard(r, name)
    case Open(a) => Returned(c.meta(a, r, key))
    case Closed => Returned(if TruthyName(key) then Null else Obj([]))
    case Throws => Raised
  }

  /**
   A record whose `id` is present but falsy (a null primary key) answers
   every identity-guarded query with its empty value, whatever its
   attachments would say.
   */
  lemma UnsavedRecordAnswersEmpty(c: Collaborators, r: Record, name: string, style: Option<string>, key: string)
    requires HasIdKey(r) && !HasIdentity(r)
    ensures Url(c, r, name, style) == Returned(Null)
    ensures Download(c, r, name, style) == Returned(Null)
    ensures Meta(c, r, name, None) == Returned(Obj([]))
    ensures Meta(c, r, name, Some(key)) == Returned(if Truthy(Str(key)) then Null else Obj([]))
  {
  }

  /**
   A record whose attribute array has no `id` key raises on every
   identity-guarded query of a declared name, and answers an undeclared name
   with the query's empty value without reading `id`.
   */
  lemma MissingIdRaises(c: Collaborators, r: Record, name: string, style: Option<string>, key: Option<string>)
    requires !HasIdKey(r)
    ensures Declared(r.files, name) ==>
      Url(c, r, name, style) == Raised && Download(c, r, name, style) == Raised &&
      Meta(c, r, name, key) == Raised
    ensures !Declared(r.files, name) ==>
      Url(c, r, name, style) == Returned(Null) && Download(c, r, name, style) == Returned(Null) &&
      Meta(c, r, name, key) == Returned(if TruthyName(key) then Null else Obj([]))
  {
  }

  /**
   The all-fields object agrees with the single-field query: entry `i` holds
   exactly what `getFiles` answers for the `i`-th declared field, provided
   that field's name is truthy and the array's keys are distinct.
   */
  lemma AllFilesAgreeWithSingle(c: Collaborators, r: Record, i: int)
    requires DistinctFields(r.files)
    requires 0 <= i < |r.files|
    requires Truthy(Str(r.files[i].field))
    ensures GetFiles(c, r, None).props[i] == (r.files[i].field, GetFiles(c, r, Some(r.files[i].field)))
  {
    var f := r.files[i].field;
    assert f in Fields(r.files) by {
      assert Fields(r.files)[i] == f;
    }
    LookupAt(r.files, i);
  }

  /**
   A declared field whose name is falsy ("0") cannot be queried alone: the
   call answers with the object for every field instead.
   */
  lemma FalsyNameListsEveryField(c: Collaborators, r: Record)
    ensures GetFiles(c, r, Some("0")) == GetFiles(c, r, None)
    ensures GetFiles(c, r, Some("")) == GetFiles(c, r, None)
  {
  }
}

=== FILE: registry.dfy ===
/**
 The per-instance `attachedFiles` array: an insertion-ordered association from
 field name to the `Attachment` bound to it.
 */
module Registry {
  import opened Values

  /** Construction options of an attachment (`array $options`). */
  type Options = seq<(string, Value)>

  /**
   An attachment as the trait sees it. Its behaviour lives behind the
   collaborator operations; `state` stands for whatever it keeps internally.
   */
  datatype Attachment = Attachment(name: string, folder: string, options: Options, state: Value)

  datatype Binding = Binding(field: string, attachment: Attachment)

  /** The declared field names, in array order. */
  function Fields(bs: seq<Binding>): (fs: seq<string>)
    ensures |fs| == |bs|
    ensures forall i :: 0 <= i < |bs| ==> fs[i] == bs[i].field
  {
    if bs == [] then [] else [bs[0].field] + Fields(bs[1..])
  }

  /** `array_key_exists($name, $this->attachedFiles)`. */
  predicate Declared(bs: seq<Binding>, name: string)
  {
    name in Fields(bs)
  }

  /** No field is bound twice, as for the keys of a PHP array. */
  predicate DistinctFields(bs: seq<Binding>)
  {
    forall i, j :: 0 <= i < j < |bs| ==> bs[i].field != bs[j].field
  }

  /** `$this->attachedFiles[$name]`, absent when the key is missing. */
  function Lookup(bs: seq<Binding>, name: string): (r: Option<Attachment>)
    ensures r.Some? <==> Declared(bs, name)
    ensures r.Some? ==> Binding(name, r.value) in bs
  {
    if bs == [] then None
    else if bs[0].field == name then Some(bs[0].attachment)
    else Lookup(bs[1..], name)
  }

  /** With distinct keys, the lookup of a field finds the attachment at that field's position. */
  lemma {:induction false} LookupAt(bs: seq<Binding>, i: int)
    requires DistinctFields(bs)
    requires 0 <= i < |bs|
    ensures Lookup(bs, bs[i].field) == Some(bs[i].attachment)
  {
    if i > 0 {
      assert bs[0].field != bs[i].field;
      LookupAt(bs[1..], i - 1);
    }
  }

  /**
   `$this->attachedFiles[$name] = $a`: an existing key keeps its position and
   gets the new attachment; a new key goes to the end.
   */
  function Bind(bs: seq<Binding>, name: string, a: Attachment): (bs': seq<Binding>)
    ensures Lookup(bs', name) == Some(a)
  {
    if bs == [] then [Binding(name, a)]
    else if bs[0].field == name then [Binding(name, a)] + bs[1..]
    else
      var rest := Bind(bs[1..], name, a);
      var bs' := [bs[0]] + rest;
      assert bs'[1..] == rest;
      bs'
  }

  /** An existing key keeps its position; a new key goes to the end. */
  lemma {:induction false} BindFields(bs: seq<Binding>, name: string, a: Attachment)
    ensures Declared(bs, name) ==> Fields(Bind(bs, name, a)) == Fields(bs)
    ensures !Declared(bs, name) ==> Fields(Bind(bs, name, a)) == Fields(bs) + [name]
  {
    if bs != [] {
      var bs' := Bind(bs, name, a);
      assert Fields(bs) == [bs[0].field] + Fields(bs[1..]);
      if bs[0].field == name {
        assert bs'[1..] == bs[1..];
      } else {
        assert bs'[1..] == Bind(bs[1..], name, a);
        BindFields(bs[1..], name, a);
        assert Fields(bs') == [bs[0].field] + Fields(bs'[1..]);
      }
    }
  }

  /** Binding one field leaves the lookup of every other field as it was. */
  lemma {:induction false} BindKeepsOthers(bs: seq<Binding>, name: string, a: Attachment, n: string)
    requires n != name
    ensures Lookup(Bind(bs, name, a), n) == Lookup(bs, n)
  {
    if bs == [] {
    } else if bs[0].field == name {
      assert Bind(bs, name, a)[1..] == bs[1..];
    } else {
      var rest := Bind(bs[1..], name, a);
      assert Bind(bs, name, a)[1..] == rest;
      BindKeepsOthers(bs[1..], name, a, n);
    }
  }

  /** `BindKeepsOthers` for every other field at once. */
  lemma BindKeepsAllOthers(bs: seq<Binding>, name: string, a: Attachment)
    ensures forall n :: n != name ==> Lookup(Bind(bs, name, a), n) == Lookup(bs, n)
  {
    forall n | n != name
      ensures Lookup(Bind(bs, name, a), n) == Lookup(bs, n)
    {
      BindKeepsOthers(bs, name, a, n);
    }
  }

  /** Binding keeps the array's keys distinct. */
  lemma BindKeepsDistinct(bs: seq<Binding>, name: string, a: Attachment)
    requires DistinctFields(bs)
    ensures DistinctFields(Bind(bs, name, a))
  {
    var bs' := Bind(bs, name, a);
    var fs, fs' := Fields(bs), Fields(bs');
    BindFields(bs, name, a);
    if Declared(bs, name) {
      assert fs' == fs;
    } else {
      assert fs' == fs + [name];
      forall i | 0 <= i < |bs|
        ensures bs'[i].field != name
      {
        assert fs'[i] == fs[i];
      }
    }
  }
}

=== FILE: routing.dfy ===
/**
 Declaration of attachment fields and the dual routing of attribute reads and
 writes: a declared field name goes to its attachment, any other name to the
 plain attribute array of the persistence framework.
 */
module Routing {
  import opened Values
  import opened Registry
  import opened State
  import opened Queries

  /** What `setUploadedFile` returns, with the class-wide and instance state after it. */
  datatype Assigned = Assigned(handled: bool, world: World, record: Record)

  /**
   `hasUploadFile($name, $options)`: binds a new attachment for `name`, in
   the folder named after the table, replacing any earlier binding in place.
   */
  function HasUploadFile(c: Collaborators, r: Record, name: string, options: Options): (r': Record)
    ensures Lookup(r'.files, name) == Some(c.make(name, r.table, options))
    ensures forall n :: n != name ==> Lookup(r'.files, n) == Lookup(r.files, n)
    ensures Declared(r.files, name) ==> Fields(r'.files) == Fields(r.files)
    ensures !Declared(r.files, name) ==> Fields(r'.files) == Fields(r.files) + [name]
    ensures r'.table == r.table && r'.attributes == r.attributes
  {
    var a := c.make(name, r.table, options);
    BindKeepsAllOthers(r.files, name, a);
    BindFields(r.files, name, a);
    r.(files := Bind(r.files, name, a))
  }

  /**
   `setUploadedFile($key, $file, $cover)`. Handled exactly when `key` is
   declared; only a truthy file is forwarded, to that key's attachment alone,
   and it lowers the class-wide `uploaded` flag.
   */
  function SetUploadedFile(c: Collaborators, w: World, r: Record, key: string, file: Value, cover: Value): (res: Assigned)
    ensures res.handled <==> Declared(r.files, key)
    ensures !(Declared(r.files, key) && Truthy(file)) ==> res.world == w && res.record == r
    ensures Declared(r.files, key) && Truthy(file) ==>
      && !res.world.uploaded
      && res.world.trace == w.trace + [FileAssigned(key, file, cover)]
      && res.record.table == r.table
      && res.record.attributes == r.attributes
      && Fields(res.record.files) == Fields(r.files)
      && Lookup(res.record.files, key) == Some(c.assign(Lookup(r.files, key).value, file, cover))
      && forall n :: n != key ==> Lookup(res.record.files, n) == Lookup(r.files, n)
  {
    match Lookup(r.files, key)
    case Some(a) =>
      if Truthy(file) then
        var a' := c.assign(a, file, cover);
        BindKeepsAllOthers(r.files, key, a');
        BindFields(r.files, key, a');
        Assigned(true, World(false, w.trace + [FileAssigned(key, file, cover)]),
                 r.(files := Bind(r.files, key, a')))
      else
        Assigned(true, w, r)
    case None =>
      Assigned(false, w, r)
  }

  /**
   `setAttribute($key, $value)`: a declared key is routed to
   `setUploadedFile` with no cover and never reaches the attribute array; any
   other key is written there and nothing else changes.
   */
  function SetAttribute(c: Collaborators, w: World, r: Record, key: string, value: Value): (res: (World, Record))
    ensures Declared(r.files, key) ==> res.1.attributes == r.attributes
    ensures Declared(r.files, key) ==>
      var a := SetUploadedFile(c, w, r, key, value, Null); res == (a.world, a.record)
    ensures !Declared(r.files, key) ==>
      res.0 == w && res.1.files == r.files && res.1.table == r.table &&
      res.1.attributes == r.attributes[key := value]
  {
    var a := SetUploadedFile(c, w, r, key, value, Null);
    if a.handled then (a.world, a.record)
    else (w, r.(attributes := r.attributes[key := value]))
  }

  /** `parent::getAttribute($key)` on the plain attribute array: null when absent. */
  function ParentGet(attributes: map<string, Value>, key: string): Value
  {
    if key in attributes then attributes[key] else Null
  }

  /**
   `getAttribute($key)`: a declared key reads its attachment's files view,
   any other key the plain attribute.
   */
  function GetAttribute(c: Collaborators, r: Record, key: string): (v: Value)
    ensures Declared(r.files, key) ==> v == GetFiles(c, r, Some(key))
    ensures !Declared(r.files, key) ==> v == ParentGet(r.attributes, key)
  {
    if Declared(r.files, key) then GetFiles(c, r, Some(key))
    else ParentGet(r.attributes, key)
  }

  /** Writing a plain attribute and reading it back gives the value written. */
  lemma PlainRoundTrip(c: Collaborators, w: World, r: Record, key: string, value: Value)
    requires !Declared(r.files, key)
    ensures GetAttribute(c, SetAttribute(c, w, r, key, value).1, key) == value
  {
  }

  /**
   Writing an attachment field, whatever the value, leaves every plain
   attribute read as before: the parent attribute array is never touched.
   */
  lemma AttachmentWriteSparesAttributes(c: Collaborators, w: World, r: Record, key: string, value: Value, other: string)
    requires Declared(r.files, key)
    requires !Declared(r.files, other)
    ensures GetAttribute(c, SetAttribute(c, w, r, key, value).1, other) == GetAttribute(c, r, other)
  {
    var r' := SetAttribute(c, w, r, key, value).1;
    assert Fields(r'.files) == Fields(r.files);
  }

  /**
   Reading an attachment field never yields the value written to it: after a
   truthy write the read is the files view of the updated attachment.
   */
  lemma AttachmentReadSeesAttachment(c: Collaborators, w: World, r: Record, key: string, value: Value)
    requires Declared(r.files, key)
    requires Truthy(value) && Truthy(Str(key))
    ensures var r' := SetAttribute(c, w, r, key, value).1;
      GetAttribute(c, r', key) == c.files(c.assign(Lookup(r.files, key).value, value, Null), r')
  {
    var r' := SetAttribute(c, w, r, key, value).1;
    assert Fields(r'.files) == Fields(r.files);
  }
}

=== FILE: scenarios.dfy ===
/**
 Sequences of calls on model instances, and what the class-wide `uploaded`
 flag makes of them: the saved hook's body runs at most once between two
 uploads, and an upload on one instance can be swallowed by a save of
 another, since the flag is shared by the whole class hierarchy.
 */
module Scenarios {
  import opened Values
  import opened Registry
  import opened State
  import opened Routing
  import opened Queries
  import opened Lifecycle

  /** One call on a model instance. */
  datatype Op =
    | DeclareField(name: string, options: Options)
    | AssignFile(key: string, file: Value, cover: Value)
    | AssignAttribute(key: string, value: Value)
    | SaveRecord
    | DeleteRecord(forceDeleting: Value)

  /** The state after one call. */
  function Step(c: Collaborators, w: World, r: Record, op: Op): (World, Record)
  {
    match op
    case DeclareField(name, options) => (w, HasUploadFile(c, r, name, options))
    case AssignFile(key, file, cover) =>
      var a := SetUploadedFile(c, w, r, key, file, cover); (a.world, a.record)
    case AssignAttribute(key, value) => SetAttribute(c, w, r, key, value)
    case SaveRecord => Save(c, w, r, false)
    case DeleteRecord(forceDeleting) => (DeletedHook(w, r, forceDeleting), r)
  }

  /** The state after a sequence of calls on one instance. */
  function Run(c: Collaborators, w: World, r: Record, ops: seq<Op>): (World, Record)
    decreases |ops|
  {
    if ops == [] then (w, r)
    else
      var (w1, r1) := Step(c, w, r, ops[0]);
      Run(c, w1, r1, ops[1..])
  }

  /** Whether a call hands a truthy file to a declared field, which lowers the flag. */
  predicate Rearms(r: Record, op: Op)
  {
    match op
    case AssignFile(key, file, _) => Declared(r.files, key) && Truthy(file)
    case AssignAttribute(key, value) => Declared(r.files, key) && Truthy(value)
    case _ => false
  }

  /** No call of the sequence lowers the flag. */
  predicate NoRearm(c: Collaborators, w: World, r: Record, ops: seq<Op>)
    decreases |ops|
  {
    ops == [] ||
    (!Rearms(r, ops[0]) &&
     var (w1, r1) := Step(c, w, r, ops[0]);
     NoRearm(c, w1, r1, ops[1..]))
  }

  /** The hook-body runs one more save can still cause: one while the flag is down. */
  function Budget(w: World): nat
  {
    if w.uploaded then 0 else 1
  }

  /** A call that does not lower the flag spends the budget for every body run. */
  lemma StepSpendsBudget(c: Collaborators, w: World, r: Record, op: Op)
    requires !Rearms(r, op)
    ensures var w' := Step(c, w, r, op).0;
      Resaves(w'.trace) + Budget(w') <= Resaves(w.trace) + Budget(w)
  {
    match op
    case SaveRecord =>
      SaveRunsBodyAtMostOnce(c, w, r);
    case DeleteRecord(forceDeleting) =>
      DeleteCascadesOnlyWhenForced(w, r, forceDeleting);
    case _ =>
  }

  /**
   Until a truthy file reaches a declared field, the saved hook's body runs
   at most once, however many saves, deletes, declarations and plain writes
   come in between, and not at all if the flag was already up.
   */
  lemma {:induction false} HookBodyAtMostOnce(c: Collaborators, w: World, r: Record, ops: seq<Op>)
    requires NoRearm(c, w, r, ops)
    ensures var w' := Run(c, w, r, ops).0;
      Resaves(w'.trace) + Budget(w') <= Resaves(w.trace) + Budget(w)
    ensures Resaves(Run(c, w, r, ops).0.trace) <= Resaves(w.trace) + Budget(w)
    decreases |ops|
  {
    if ops != [] {
      var (w1, r1) := Step(c, w, r, ops[0]);
      StepSpendsBudget(c, w, r, ops[0]);
      HookBodyAtMostOnce(c, w1, r1, ops[1..]);
    }
  }

  /**
   A truthy file on a declared field re-arms the hook: the next save runs the
   body again, whatever saves came before.
   */
  lemma UploadRearmsHook(c: Collaborators, w: World, r: Record, key: string, file: Value, cover: Value)
    requires Declared(r.files, key) && Truthy(file)
    ensures var a := SetUploadedFile(c, w, r, key, file, cover);
      Resaves(Save(c, a.world, a.record, false).0.trace) == Resaves(a.world.trace) + 1
  {
    var a := SetUploadedFile(c, w, r, key, file, cover);
    SaveRunsBodyAtMostOnce(c, a.world, a.record);
  }

  /**
   The flag is one per class hierarchy, not per instance, so the two
   instances may be of the same class or of two subclasses of a class that
   uses the trait (their tables may differ). Two instances each receive a
   file, and the first is saved before the second. The second file is still
   handed to its attachment, but the first save leaves the flag up, so the
   second save never calls `saved` on the second instance's attachments,
   which is the call that would store the file.
   */
  lemma SiblingUploadSwallowed(c: Collaborators, w: World, first: Record, second: Record,
                               k1: string, f1: Value, k2: string, f2: Value)
    requires Declared(first.files, k1) && Truthy(f1)
    requires Declared(second.files, k2) && Truthy(f2)
    ensures
      var a1 := SetUploadedFile(c, w, first, k1, f1, Null);
      var a2 := SetUploadedFile(c, a1.world, second, k2, f2, Null);
      var (w3, _) := Save(c, a2.world, a1.record, false);
      var (w4, second') := Save(c, w3, a2.record, false);
      && FileAssigned(k2, f2, Null) in w4.trace
      && second'.files == a2.record.files
      && w4.trace == w3.trace + [ModelSaved(false)]
  {
    var a1 := SetUploadedFile(c, w, first, k1, f1, Null);
    var a2 := SetUploadedFile(c, a1.world, second, k2, f2, Null);
    var (w3, _) := Save(c, a2.world, a1.record, false);
    assert a2.world.trace[|a2.world.trace| - 1] == FileAssigned(k2, f2, Null);
    assert w3.trace[|a2.world.trace| - 1] == FileAssigned(k2, f2, Null);
  }

  /**
   Every call except a save keeps the attachment array free of duplicate
   fields; a save hands the record to the attachments, which may return any.
   */
  lemma StepKeepsDistinct(c: Collaborators, w: World, r: Record, op: Op)
    requires DistinctFields(r.files)
    requires !op.SaveRecord?
    ensures DistinctFields(Step(c, w, r, op).1.files)
  {
    match op
    case DeclareField(name, options) =>
      BindKeepsDistinct(r.files, name, c.make(name, r.table, options));
    case AssignFile(key, file, cover) =>
      if Declared(r.files, key) && Truthy(file) {
        BindKeepsDistinct(r.files, key, c.assign(Lookup(r.files, key).value, file, cover));
      }
    case AssignAttribute(key, value) =>
      if Declared(r.files, key) && Truthy(value) {
        BindKeepsDistinct(r.files, key, c.assign(Lookup(r.files, key).value, value, Null));
      }
    case DeleteRecord(_) =>
  }

  /**
   Writing a truthy `id` opens the identity guard: from then on `url`,
   `download` and `meta` of a declared field answer with what its attachment
   says about the updated record.
   */
  lemma IdentityOpensQueries(c: Collaborators, w: World, r: Record, v: Value, name: string,
                             style: Option<string>, key: Option<string>)
    requires !Declared(r.files, "id") && Truthy(v)
    requires Declared(r.files, name)
    ensures var r' := SetAttribute(c, w, r, "id", v).1;
      var a := Lookup(r.files, name).value;
      && Url(c, r', name, style) == Returned(c.url(a, r', StyleOrDefault(style)))
      && Download(c, r', name, style) == Returned(c.download(a, r', StyleOrDefault(style)))
      && Meta(c, r', name, key) == Returned(c.meta(a, r', key))
  {
  }
}

=== FILE: state.dfy ===
/**
 The state the `Larupload` trait works over, and the collaborators it calls.

 - `World` is class-wide: the static `$uploaded` flag, shared by every
   instance of the class that uses the trait and of its subclasses, and the trace of calls the trait issues to
   attachments and to the persistence framework.
 - `Record` is one model instance: its table, its `attachedFiles` array and
   its plain attribute array.
 - `Collaborators` gathers the `Attachment` methods whose code is not part of
   this model; each is an arbitrary function, so every property proved here
   holds whatever they do.
 */
module State {
  import opened Values
  import opened Registry

  /** A call leaving the trait, in the order it was issued. */
  datatype Event =
    /** `$attachedFile->setUploadedFile($file, $cover)` on the attachment of `field`. */
    | FileAssigned(field: string, file: Value, cover: Value)
    /** `$attachedFile->saved($model)` on the attachment of `field`. */
    | AttachmentSaved(field: string)
    /** `$attachedFile->deleted($model)` on the attachment of `field`. */
    | AttachmentDeleted(field: string)
    /** A persistence-framework save; `resave` marks the one the saved hook issues itself. */
    | ModelSaved(resave: bool)

  datatype World = World(uploaded: bool, trace: seq<Event>)

  datatype Record = Record(table: string, files: seq<Binding>, attributes: map<string, Value>)

  datatype Collaborators = Collaborators(
    /**
     The persistence framework's own write during `save()`: the attributes
     the record holds when its saved event fires (the key assigned on
     insert, timestamps, ...)
     */
    persist: Record -> map<string, Value>,
    /** `new Attachment($name, $folder, $options)` */
    make: (string, string, Options) -> Attachment,
    /** `Attachment::setUploadedFile($file, $cover)` */
    assign: (Attachment, Value, Value) -> Attachment,
    /** `Attachment::saved($model)`, which hands back the model to continue with */
    saved: (Attachment, Record) -> Record,
    /** `Attachment::getFiles($model)` */
    files: (Attachment, Record) -> Value,
    /** `Attachment::url($model, $style)` */
    url: (Attachment, Record, string) -> Value,
    /** `Attachment::download($model, $style)` */
    download: (Attachment, Record, string) -> Value,
    /** `Attachment::getMeta($model, $key)` */
    meta: (Attachment, Record, Option<string>) -> Value
  )

  /** The class as first loaded: `protected static $uploaded = false`. */
  const Boot: World := World(false, [])

  /** The style `url` and `download` use when none is given (`$style = 'original'`). */
  const DefaultStyle: string := "original"

  /** The style argument of `url`/`download`: the one passed, or the default when omitted. */
  function StyleOrDefault(style: Option<string>): (s: string)
    ensures style.Some? ==> s == style.value
    ensures style.None? ==> s == "original"
  {
    if style.Some? then style.value else DefaultStyle
  }

  /**
   What a guarded query gives back: a value, or the exception raised when it
   reads `$this->attributes['id']` and the key is missing (the undefined-index
   notice or warning, turned into an exception by Laravel's error handler).
   */
  datatype Reply = Returned(value: Value) | Raised

  /** The attribute array holds an `id` key at all. */
  predicate HasIdKey(r: Record)
  {
    "id" in r.attributes
  }

  /** `$this->attributes['id']` is present and reads true. */
  predicate HasIdentity(r: Record)
  {
    HasIdKey(r) && Truthy(r.attributes["id"])
  }

  /** The record after the framework's write of a save. */
  function Persisted(c: Collaborators, r: Record): (r': Record)
    ensures r'.files == r.files && r'.table == r.table
  {
    r.(attributes := c.persist(r))
  }
}

=== FILE: values.dfy ===
/**
 The dynamically typed values the trait handles: attribute values, uploaded
 files, stdClass objects, and PHP's rules for treating a value as a boolean.
 */
module Values {

  /** A value that may be absent, as PHP's nullable parameters are. */
  datatype Option<+T> = None | Some(value: T)

  /** The PHP values that reach the trait. Floats are not modelled. */
  datatype Value =
    | Null
    | Bool(b: bool)
    | Int(i: int)
    | Str(s: string)
    | Arr(items: seq<Value>)
    /** An uploaded-file object handed to a field; `handle` tells uploads apart. */
    | Upload(handle: nat)
    /** An `Attachment` instance sitting in an attribute slot. */
    | AttachmentObject(field: string)
    /** A `stdClass` object with its properties in insertion order. */
    | Obj(props: seq<(string, Value)>)

  /** PHP's conversion to boolean: null, false, 0, "", "0" and [] are false; every object is true. */
  predicate Truthy(v: Value)
  {
    match v
    case Null => false
    case Bool(b) => b
    case Int(i) => i != 0
    case Str(s) => s != "" && s != "0"
    case Arr(items) => items != []
    case Upload(_) => true
    case AttachmentObject(_) => true
    case Obj(_) => true
  }

  /** A nullable string parameter (`string $name = null`) read as a boolean. */
  predicate TruthyName(name: Option<string>)
  {
    name.Some? && Truthy(Str(name.value))
  }

  /** The falsy values are exactly PHP's six. */
  lemma FalsyValues(v: Value)
    ensures !Truthy(v) <==> v in {Null, Bool(false), Int(0), Str(""), Str("0"), Arr([])}
  {
  }
}
